=== FILE: README.md ===
# mysql2-template-string in Dafny

This project models `mysql2-template-string.ts`. That file is a small layer
over the `mysql2` driver. A tagged template such as
sql`SELECT * FROM t WHERE a = ${x}` builds an `SQLStatement`, which holds the
literal fragments (`strings`) and the interpolated values (`values`). The
statement renders as:

- `sql`: a parameterised SQL string with `?` placeholders;
- `cleanValues`: the matching list of bound values;
- `text`: a `$1`, `$2`, … numbered rendering.

Two sentinels are at work:

- A string value that contains `#` is *raw*. It is spliced into the SQL text
  and never bound.
- A fragment equal to `"!"` is dropped when the `sql` getter renders the
  statement. The `text` getter keeps it.

In bound string values, every `_` becomes a space. Statements are merged in
place with `chain` and with the deprecated `append`. `genFilterQuery` builds a
`WHERE` clause from `[field, oper, value]` rows.

Files:

- `js_strings.dfy` (module `JsStrings`) has the JavaScript built-ins the file
  relies on: `join`, a one-character `split`, `filter`, `map`, and the
  decimal numeral that `"$" + i` produces.
- `sql_template.dfy` (module `SqlTemplate`) has the rest:
  - the value type and the cleaning functions;
  - `text`;
  - `Resolve`, the specification of what the `sql` getter does to the
    statement;
  - the merge functions `Chained` and `Appended`;
  - the class `SqlStatement`, whose `Chain`, `Append` and `Sql` methods
    change `strings` and `values` in place, as the source does;
  - the `sql` tag (`SqlTag`) and `GenFilterQuery`.

Points of the code's behaviour worth knowing:

- **Raw splice.** The `sql` getter splices `currentValue.slice(1)`, the value
  minus its first character. This is the text after the `#` only when the `#`
  comes first.
- **`"!"` fragments.** A fragment equal to `"!"` that survives the splice
  renders as nothing (`RenderDropsBang`). A `"!"` fragment right after a raw
  value is glued onto the fragment before it by the splice, so it is rendered
  (`BangAfterRawIsKept`), unless the fragment it ends up in after every splice
  is exactly `"!"`. That happens when the fragment before it and the raw value
  minus its first character are both empty and the next value is bound: the
  merged `"!"` is dropped and that bound value loses its `?`
  (`BangAfterEmptyRawIsDropped`). When the next value is raw too, the rescan
  glues the following fragment on, and the `"!"` is rendered
  (`BangBeforeRawIsKept`).
- **`append`.** The deprecated `append` pushes *all* of the other statement's
  fragments, including the first one, which it has already glued onto the
  last fragment. Merging two well-formed statements with `append` therefore
  gives two more fragments than values, not one (`AppendedBreaksShape`). The
  rendered text repeats the first fragment after an extra `?`
  (`RenderAppended`).
- **Self-merge.** When a statement is merged with itself (`x.chain(x)`,
  `x.append(x)`), the pushed fragments are read after the last fragment was
  extended. The methods' postconditions state that case separately.

## Model

| member | source | states |
|---|---|---|
| `SqlTemplate.CleanValue` | mysql2-template-string.ts:138 | `val.split("_").join(" ")` equals `val` with every `_` replaced by a space and every other character kept |
| `JsStrings.SplitJoin` | mysql2-template-string.ts:138 | splitting on one character and joining with another replaces the first character by the second everywhere |
| `SqlTemplate.ValueCleaner` | mysql2-template-string.ts:35-41 | non-strings come back unchanged; a string keeps its length, each `_` becomes a space, every other character stays, and no `_` is left |
| `SqlTemplate.ValueCleanerKeepsRaw` | mysql2-template-string.ts:35-41 | cleaning neither adds nor removes a `#`, so a value stays raw or bound |
| `SqlTemplate.ValueCleanerIdempotent` | mysql2-template-string.ts:35-41 | cleaning twice gives the same as cleaning once |
| `SqlTemplate.CleanValues` | mysql2-template-string.ts:26-33 | the result is never longer than `values`; it has no raw value and no string containing `_` |
| `SqlTemplate.CleanValuesConcat` | mysql2-template-string.ts:26-33 | cleaning a concatenation is the concatenation of the cleanings, so the input order is kept |
| `SqlTemplate.CleanValuesOne` | mysql2-template-string.ts:26-33 | one value is dropped exactly when it is a string containing `#`; otherwise it is passed through `valueCleaner` |
| `SqlTemplate.CleanValuesIdempotent` | mysql2-template-string.ts:26-33 | cleaning the cleaned list changes nothing |
| `SqlTemplate.Text` | mysql2-template-string.ts:48-50 | there is no text exactly when there are no fragments (`reduce` without an initial value throws); otherwise the text starts with the first fragment |
| `SqlTemplate.TextOne` | mysql2-template-string.ts:48-50 | one fragment renders as itself |
| `SqlTemplate.TextSnoc` | mysql2-template-string.ts:48-50 | adding fragment number n adds `"$" + n` and then that fragment, so s0..s(n-1) render as s0 + "$1" + s1 + … + "$"(n-1) + s(n-1) |
| `SqlTemplate.TextMarkerCount` | mysql2-template-string.ts:48-50 | the text has exactly one more `$` per fragment boundary than the fragments have between them |
| `JsStrings.Decimal` | mysql2-template-string.ts:49 | the index in `"$" + i` is written as a non-empty string of decimal digits |
| `JsStrings.DecimalRoundTrip` | mysql2-template-string.ts:49 | the numeral of i reads back as i, so distinct indices give distinct `$` placeholders |
| `SqlTemplate.Resolve` | mysql2-template-string.ts:98-107 | after the splice loop, there is still the same surplus of fragments over values, and the values are exactly the non-raw ones in their original order |
| `SqlTemplate.SpliceSteps` | mysql2-template-string.ts:101-104 | the two `+=` and the `splice` of the next fragment merge fragments i and i+1 around the raw text |
| `SqlTemplate.ResolveFromRaw` | mysql2-template-string.ts:100-105 | splicing a raw value at index i and re-scanning index i does not change what the loop ends with |
| `SqlTemplate.ResolveFromBound` | mysql2-template-string.ts:98-100 | skipping a bound value at index i does not change what the loop ends with |
| `SqlTemplate.ResolveInline` | mysql2-template-string.ts:97-109 | joining the spliced fragments with `?` gives the original fragments with each raw value (minus its first character) in place and a `?` for each bound value |
| `SqlTemplate.RenderResolved` | mysql2-template-string.ts:97-110 | when no spliced fragment is `"!"`, the string the getter returns is that inlined text |
| `SqlTemplate.RenderDropsBang` | mysql2-template-string.ts:109 | a `"!"` fragment contributes nothing to the rendered SQL, not even a `?` |
| `SqlTemplate.BangAfterRawIsKept` | mysql2-template-string.ts:98-109 | fragments `["a","!","c"]` with values `["#", 1]` splice to `["a!","c"]` with values `[1]`, which render as `a!?c`: a `"!"` after a raw value is merged and rendered, unless the fragment it ends up in after every splice is exactly `"!"` |
| `SqlTemplate.BangAfterEmptyRawIsDropped` | mysql2-template-string.ts:98-109 | fragments `["","!","c"]` with values `["#", 1]` splice to `["!","c"]` with values `[1]`, which render as `c`: the merged fragment is `"!"`, so it is dropped and the bound value has no `?` |
| `SqlTemplate.BangBeforeRawIsKept` | mysql2-template-string.ts:98-109 | fragments `["","!","a"]` with values `["#","#"]` splice to `["!a"]` with no values, which renders as `!a`: the second raw value's rescan glues `"a"` onto the merged `"!"`, so it is rendered |
| `SqlTemplate.ResolveNoRaw` | mysql2-template-string.ts:97-107 | without raw values the loop changes nothing, so a second `sql` call is a no-op |
| `SqlTemplate.ResolveKeepsCleanValues` | mysql2-template-string.ts:97-107 | the `sql` getter does not change `cleanValues`, the list `execute` binds right after it |
| `SqlTemplate.SqlStatement.Sql` | mysql2-template-string.ts:97-110 | in place, the statement becomes `Resolve` of its old state; no raw value remains; the fragment surplus is kept; the result is the non-`"!"` fragments joined with `?`; a statement without raw values is left unchanged |
| `SqlTemplate.Chained` | mysql2-template-string.ts:69-70 | `chain` of a statement gives one fragment fewer than the two statements had together |
| `SqlTemplate.ChainedKeepsShape` | mysql2-template-string.ts:67-71 | when both statements have one more fragment than values, so does the chained one |
| `SqlTemplate.JoinChained` | mysql2-template-string.ts:69-70 | the chained fragments join as the first statement's join, one space, then the second's |
| `SqlTemplate.RenderChained` | mysql2-template-string.ts:67-71 | when neither fragment at the seam (the first statement's last, the second's first) is `"!"`, the chained statement renders as the first statement's SQL, one space, then the second's |
| `SqlTemplate.Appended` | mysql2-template-string.ts:84-85 | `append` of a statement gives as many fragments as the two statements had together |
| `SqlTemplate.AppendedBreaksShape` | mysql2-template-string.ts:83-89 | appending two well-formed statements leaves two more fragments than values |
| `SqlTemplate.JoinAppended` | mysql2-template-string.ts:84-85 | the appended fragments join with the other statement's first fragment twice: glued on, then again after a separator |
| `SqlTemplate.RenderAppended` | mysql2-template-string.ts:83-89 | when neither fragment at the seam is `"!"`, the appended statement renders as the first statement's SQL, the other's first fragment, `?`, then the other's SQL |
| `SqlTemplate.SqlStatement.constructor` | mysql2-template-string.ts:21-24 | the statement holds the given fragments and values |
| `SqlTemplate.SqlStatement.Chain` | mysql2-template-string.ts:67-77 | returns the receiver. For text: only the last fragment changes, to last + " " + text. For another statement: fragments become `Chained`, and the other's values follow the old ones. Self-chaining is stated separately |
| `SqlTemplate.SqlStatement.Append` | mysql2-template-string.ts:82-95 | returns the receiver. For text: the same as `Chain`. For another statement: fragments become `Appended`, and the other's values follow the old ones. Self-appending is stated separately |
| `SqlTemplate.SqlTag` | mysql2-template-string.ts:113-115 | a new statement holding a copy of the template's fragments and its values |
| `SqlTemplate.ClausesConcat` | mysql2-template-string.ts:144-146 | the predicates collected from a concatenation of rows are the concatenation of the predicates, so the input order is kept |
| `SqlTemplate.ClausesEmpty` | mysql2-template-string.ts:144-148 | no predicate is collected exactly when every row's value is empty |
| `SqlTemplate.GenFilterQuery` | mysql2-template-string.ts:140-151 | the result is a new statement with no values. Its only fragment is `""` when no row has a non-empty value; otherwise it is "WHERE " followed by the predicates `field oper "cleaned value"` of the qualifying rows, in order, joined with " AND " |

## Left out

- `execute` (mysql2-template-string.ts:52-65) and the deprecated default `SQL` (mysql2-template-string.ts:120-136): both are database I/O through the `mysql2` driver. They open a connection, execute, swallow errors to `undefined` and close. Only the part they rely on is modelled: `sql` followed by `cleanValues` (`ResolveKeepsCleanValues`).
- `initConnection` and `initMySqlPool` (mysql2-template-string.ts:4-13): they read environment variables and create a driver pool.
- The `query` getter (mysql2-template-string.ts:44-46): `return this.query` re-enters the getter until the call stack overflows and a RangeError is thrown; it never returns a value.
- JavaScript values other than strings: `Value.Other` stands for all of them, because the code only asks `typeof v == "string"`.
- `SqlTemplate.SqlStatement.Sql` requires more fragments than values. Without that, a raw value at an index i with no fragment i+1 makes the source read `strings[i + 1]` as `undefined` and splice the word "undefined"; statements that break the count but have no such raw value render normally (fragments `["a"]` with values `[1]` give `"a"`) and are not modelled either.
- `SqlTemplate.SqlStatement.Chain`, `SqlTemplate.SqlStatement.Append`: require a non-empty receiver, and a non-empty fragment list for a merged statement. Otherwise the source writes an array property named "-1" or concatenates "undefined".
- `SqlTemplate.SqlStatement.Append`: the `if (list)` guard is always true here, because `values` is always a list.
- Fragment and value lists are values (`seq`). The constructor keeps the caller's `strings` and `values` arrays by reference, and `chain`, `append` and `sql` then `push` into them and `splice` them in place. Aliasing of either array is not modelled: a caller that keeps an array it passed to the constructor, or shares one array between two statements, sees changes the model does not show. The `sql` tag copies the fragments and gets a fresh values array from its rest parameter, so statements it builds share neither.
- Strings are modelled as sequences of Unicode code points, not of UTF-16 code units. `slice(1)` in the `sql` getter drops one code unit, so for a raw value that starts with a character outside the Basic Multilingual Plane (such as `"😀#x"`) the source splices a lone surrogate followed by `"#x"`, while `Resolve` splices `"#x"`.
- `genFilterQuery` rows are modelled as `[field, oper, value]` triples of strings. Rows of another length or with non-string entries are not modelled. `!!value` on a string is "the value is not empty".
- Concurrent use of one statement instance: nothing in the code coordinates it.

=== FILE: js_strings.dfy ===
/**
  The JavaScript string and array built-ins the statement builder relies on:
  `Array.prototype.join`, `String.prototype.split` with a one-character
  separator, `filter`, `map`, and the decimal rendering of a non-negative
  integer that `"$" + i` performs.
 */
module JsStrings {

  /** `parts.join(sep)`: the parts in order, `sep` between neighbours; `[].join(sep)` is "". */
  function Join(parts: seq<string>, sep: string): (r: string)
    ensures |parts| >= 1 ==> parts[0] <= r
  {
    if |parts| == 0 then ""
    else if |parts| == 1 then parts[0]
    else parts[0] + sep + Join(parts[1..], sep)
  }

  /** Joining two non-empty lists puts exactly one separator at the seam. */
  lemma {:induction false} JoinConcat(a: seq<string>, b: seq<string>, sep: string)
    requires |a| >= 1 && |b| >= 1
    ensures Join(a + b, sep) == Join(a, sep) + sep + Join(b, sep)
  {
    if |a| == 1 {
      assert (a + b)[1..] == b;
    } else {
      assert (a + b)[1..] == a[1..] + b;
      JoinConcat(a[1..], b, sep);
    }
  }

  /** Text glued to the front of the first part comes out at the front of the join. */
  lemma {:induction false} JoinExtendFirst(x: string, y: string, rest: seq<string>, sep: string)
    ensures Join([x + y] + rest, sep) == x + Join([y] + rest, sep)
  {
  }

  /** Text glued to the end of the last part comes out at the end of the join. */
  lemma {:induction false} JoinExtendLast(parts: seq<string>, t: string, sep: string)
    requires |parts| >= 1
    ensures Join(parts[|parts| - 1 := parts[|parts| - 1] + t], sep) == Join(parts, sep) + t
  {
    var n := |parts|;
    if n > 1 {
      var ext := parts[n - 1 := parts[n - 1] + t];
      assert ext == [parts[0]] + ext[1..];
      assert ext[1..] == parts[1..][n - 2 := parts[n - 1] + t];
      JoinExtendLast(parts[1..], t, sep);
    }
  }

  /** `s.split(sep)` for a one-character separator; "" splits into [""]. */
  function Split(s: string, sep: char): (r: seq<string>)
    ensures |r| >= 1
    ensures forall i :: 0 <= i < |r| ==> sep !in r[i]
  {
    if s == [] then [""]
    else
      var rest := Split(s[1..], sep);
      if s[0] == sep then [""] + rest
      else [[s[0]] + rest[0]] + rest[1..]
  }

  /** Every occurrence of `c` in `s` replaced by `d`, every other character kept. */
  function ReplaceChar(s: string, c: char, d: char): string
  {
    seq(|s|, i requires 0 <= i < |s| => if s[i] == c then d else s[i])
  }

  /** `s.split(c).join(d)` replaces every `c` by `d`. */
  lemma {:induction false} SplitJoin(s: string, c: char, d: char)
    ensures Join(Split(s, c), [d]) == ReplaceChar(s, c, d)
  {
    if s != [] {
      var rest := Split(s[1..], c);
      SplitJoin(s[1..], c, d);
      assert ReplaceChar(s, c, d) == [if s[0] == c then d else s[0]] + ReplaceChar(s[1..], c, d);
      if s[0] == c {
        JoinConcat([""], rest, [d]);
      } else {
        assert rest == [rest[0]] + rest[1..];
        JoinExtendFirst([s[0]], rest[0], rest[1..], [d]);
      }
    }
  }

  /** `s.filter(p)`: the elements satisfying `p`, in their original order. */
  function Filter<T>(p: T -> bool, s: seq<T>): (r: seq<T>)
    ensures |r| <= |s|
    ensures forall i :: 0 <= i < |r| ==> p(r[i])
  {
    if s == [] then []
    else (if p(s[0]) then [s[0]] else []) + Filter(p, s[1..])
  }

  /** Filtering distributes over concatenation, so relative order is kept. */
  lemma {:induction false} FilterConcat<T>(p: T -> bool, a: seq<T>, b: seq<T>)
    ensures Filter(p, a + b) == Filter(p, a) + Filter(p, b)
  {
    if a == [] {
      assert a + b == b;
    } else {
      assert (a + b)[1..] == a[1..] + b;
      FilterConcat(p, a[1..], b);
    }
  }

  /** A list all of whose elements pass is its own filter. */
  lemma {:induction false} FilterAll<T>(p: T -> bool, s: seq<T>)
    requires forall i :: 0 <= i < |s| ==> p(s[i])
    ensures Filter(p, s) == s
  {
    if s != [] {
      FilterAll(p, s[1..]);
    }
  }

  /** `s.map(f)`. */
  function Map<T, U>(f: T -> U, s: seq<T>): seq<U>
  {
    seq(|s|, i requires 0 <= i < |s| => f(s[i]))
  }

  lemma {:induction false} MapConcat<T, U>(f: T -> U, a: seq<T>, b: seq<T>)
    ensures Map(f, a + b) == Map(f, a) + Map(f, b)
  {
  }

  function DigitChar(d: nat): (c: char)
    requires d < 10
  {
    "0123456789"[d]
  }

  /** The decimal numeral JavaScript produces for a non-negative integer (`"" + n`). */
  function Decimal(n: nat): (r: string)
    ensures |r| >= 1
    ensures forall k :: 0 <= k < |r| ==> '0' <= r[k] <= '9'
  {
    if n < 10 then [DigitChar(n)] else Decimal(n / 10) + [DigitChar(n % 10)]
  }

  /** The value a string of decimal digits denotes. */
  function DecimalValue(s: string): nat
    requires forall k :: 0 <= k < |s| ==> '0' <= s[k] <= '9'
  {
    if s == [] then 0 else 10 * DecimalValue(s[..|s| - 1]) + (s[|s| - 1] - '0') as nat
  }

  /** The numeral of `n` reads back as `n`, so distinct indices give distinct numerals. */
  lemma {:induction false} DecimalRoundTrip(n: nat)
    ensures DecimalValue(Decimal(n)) == n
  {
    var r := Decimal(n);
    if n < 10 {
      assert r == [DigitChar(n)];
    } else {
      var q, d := n / 10, n % 10;
      DecimalRoundTrip(q);
      assert r == Decimal(q) + [DigitChar(d)];
      assert r[..|r| - 1] == Decimal(q);
      assert (r[|r| - 1] - '0') as nat == d;
      assert n == 10 * q + d;
    }
  }

  /** The number of occurrences of `c` in `s`. */
  function Count(c: char, s: string): nat
  {
    if s == [] then 0 else (if s[0] == c then 1 else 0) + Count(c, s[1..])
  }

  lemma {:induction false} CountConcat(c: char, a: string, b: string)
    ensures Count(c, a + b) == Count(c, a) + Count(c, b)
  {
    if a == [] {
      assert a + b == b;
    } else {
      assert (a + b)[1..] == a[1..] + b;
      CountConcat(c, a[1..], b);
    }
  }

  lemma {:induction false} CountAbsent(c: char, s: string)
    requires c !in s
    ensures Count(c, s) == 0
  {
    if s != [] {
      CountAbsent(c, s[1..]);
    }
  }
}

=== FILE: sql_template.dfy ===
/**
  A model of `mysql2-template-string.ts`: the `SQLStatement` class that a
  template-literal call such as sql`SELECT * FROM t WHERE a = ${x}` produces,
  holding the literal fragments (`strings`) and the interpolated values
  (`values`); its derived views (`cleanValues`, `text`, `sql`); the in-place
  merges `chain` and `append`; the `sql` tag; and `genFilterQuery`.

  Two sentinels drive the behaviour: a string value containing `#` is "raw"
  (spliced into the SQL text instead of being bound), and a fragment equal to
  "!" is dropped when the `sql` getter renders the statement (`text` keeps it). In bound string values every `_`
  becomes a space.
 */
module SqlTemplate {
  import opened JsStrings

  /** A template value: JavaScript tests values only for `typeof v == "string"`. */
  datatype Value = Str(s: string) | Other(n: int)

  /** `None` stands for the TypeError `reduce` throws on an empty array. */
  datatype Option<T> = None | Some(value: T)

  /** A value that is spliced into the text rather than bound: a string containing `#`. */
  predicate IsRaw(v: Value)
  {
    v.Str? && '#' in v.s
  }

  predicate IsBound(v: Value)
  {
    !IsRaw(v)
  }

  predicate AllBound(values: seq<Value>)
  {
    forall i :: 0 <= i < |values| ==> IsBound(values[i])
  }

  // ---------------------------------------------------------------- cleaning

  /** `cleanValue`: `val.split("_").join(" ")`, i.e. every underscore becomes a space. */
  function CleanValue(s: string): (r: string)
    ensures r == ReplaceChar(s, '_', ' ')
  {
    SplitJoin(s, '_', ' ');
    Join(Split(s, '_'), " ")
  }

  /** `valueCleaner`: strings lose their underscores to spaces, other values pass through. */
  function ValueCleaner(v: Value): (r: Value)
    ensures v.Other? ==> r == v
    ensures v.Str? ==> r.Str? && |r.s| == |v.s| && '_' !in r.s
    ensures v.Str? ==> forall i :: 0 <= i < |v.s| ==> r.s[i] == (if v.s[i] == '_' then ' ' else v.s[i])
  {
    match v
    case Str(s) =>
      if '_' in s then Str(CleanValue(s))
      else
        assert ReplaceChar(s, '_', ' ') == s;
        v
    case Other(_) => v
  }

  /** Cleaning never adds or removes a `#`, so it keeps a value raw or bound. */
  lemma {:induction false} ValueCleanerKeepsRaw(v: Value)
    ensures IsRaw(ValueCleaner(v)) == IsRaw(v)
  {
  }

  /** Cleaning a cleaned value changes nothing. */
  lemma {:induction false} ValueCleanerIdempotent(v: Value)
    ensures ValueCleaner(ValueCleaner(v)) == ValueCleaner(v)
  {
  }

  /** The `cleanValues` getter: the bound values, each passed through `valueCleaner`. */
  function CleanValues(values: seq<Value>): (r: seq<Value>)
    ensures |r| <= |values|
    ensures forall i :: 0 <= i < |r| ==> IsBound(r[i]) && (r[i].Str? ==> '_' !in r[i].s)
  {
    var kept := Filter(IsBound, values);
    forall i | 0 <= i < |kept| ensures IsBound(ValueCleaner(kept[i])) {
      ValueCleanerKeepsRaw(kept[i]);
    }
    Map(ValueCleaner, kept)
  }

  /** Cleaning works value by value, in order: together with `CleanValuesOne` this
      says that exactly the raw values are dropped and every other one is cleaned. */
  lemma {:induction false} CleanValuesConcat(a: seq<Value>, b: seq<Value>)
    ensures CleanValues(a + b) == CleanValues(a) + CleanValues(b)
  {
    FilterConcat(IsBound, a, b);
    MapConcat(ValueCleaner, Filter(IsBound, a), Filter(IsBound, b));
  }

  lemma {:induction false} CleanValuesOne(v: Value)
    ensures CleanValues([v]) == if IsRaw(v) then [] else [ValueCleaner(v)]
  {
  }

  /** Cleaning the cleaned values changes nothing. */
  lemma {:induction false} CleanValuesIdempotent(values: seq<Value>)
    ensures CleanValues(CleanValues(values)) == CleanValues(values)
  {
    var c := CleanValues(values);
    FilterAll(IsBound, c);
    forall i | 0 <= i < |c| ensures ValueCleaner(c[i]) == c[i] {
      assert c[i] == ValueCleaner(Filter(IsBound, values)[i]);
      ValueCleanerIdempotent(Filter(IsBound, values)[i]);
    }
  }

  // ------------------------------------------------------------------- text

  /** The `reduce` callback run from index `i` on with accumulator `acc`. */
  function TextFrom(acc: string, strings: seq<string>, i: nat): string
    requires 1 <= i <= |strings|
    decreases |strings| - i
  {
    if i == |strings| then acc
    else TextFrom(acc + "$" + Decimal(i) + strings[i], strings, i + 1)
  }

  /** The `text` getter: a left fold over the fragments, starting from the first one,
      that puts a `$` and the index of each later fragment in front of it. */
  function Text(strings: seq<string>): (r: Option<string>)
    ensures r.None? <==> strings == []
    ensures r.Some? ==> strings[0] <= r.value
  {
    if strings == [] then None
    else
      TextFromPrefix(strings[0], strings, 1);
      Some(TextFrom(strings[0], strings, 1))
  }

  lemma {:induction false} TextFromPrefix(acc: string, strings: seq<string>, i: nat)
    requires 1 <= i <= |strings|
    ensures acc <= TextFrom(acc, strings, i)
    decreases |strings| - i
  {
    if i < |strings| {
      var next := acc + "$" + Decimal(i) + strings[i];
      TextFromPrefix(next, strings, i + 1);
    }
  }

  lemma {:induction false} TextFromSnoc(acc: string, strings: seq<string>, x: string, i: nat)
    requires 1 <= i <= |strings|
    ensures TextFrom(acc, strings + [x], i) == TextFrom(acc, strings, i) + "$" + Decimal(|strings|) + x
    decreases |strings| - i
  {
    var s' := strings + [x];
    if i < |strings| {
      assert s'[i] == strings[i];
      TextFromSnoc(acc + "$" + Decimal(i) + strings[i], strings, x, i + 1);
    } else {
      assert s'[i] == x;
    }
  }

  /** One fragment renders as itself. */
  lemma {:induction false} TextOne(x: string)
    ensures Text([x]) == Some(x)
  {
  }

  /** Adding fragment number n (counting from 0) adds the placeholder `$n` before it,
      so fragments s0..s(n-1) render as s0 + "$1" + s1 + ... + "$"(n-1) + s(n-1). */
  lemma {:induction false} TextSnoc(strings: seq<string>, x: string)
    requires strings != []
    ensures Text(strings + [x]) == Some(Text(strings).value + "$" + Decimal(|strings|) + x)
  {
    TextFromSnoc(strings[0], strings, x, 1);
  }

  function CountIn(c: char, strings: seq<string>): nat
  {
    if strings == [] then 0 else CountIn(c, strings[..|strings| - 1]) + Count(c, strings[|strings| - 1])
  }

  /** `text` adds exactly one `$` marker between each pair of neighbouring fragments. */
  lemma {:induction false} TextMarkerCount(strings: seq<string>)
    requires strings != []
    ensures Count('$', Text(strings).value) == CountIn('$', strings) + |strings| - 1
  {
    var n := |strings|;
    if n == 1 {
      assert strings[..0] == [];
    } else {
      var init := strings[..n - 1];
      assert strings == init + [strings[n - 1]];
      TextMarkerCount(init);
      TextSnoc(init, strings[n - 1]);
      var d := Decimal(n - 1);
      assert '$' !in d;
      CountAbsent('$', d);
      CountConcat('$', Text(init).value, "$");
      CountConcat('$', Text(init).value + "$", d);
      CountConcat('$', Text(init).value + "$" + d, strings[n - 1]);
    }
  }

  // ------------------------------------------------------ the `sql` getter

  /** A pair of fragment and value lists, the state the `sql` getter works on. */
  datatype Parts = Parts(strings: seq<string>, values: seq<Value>)

  /**
    The state the loop of the `sql` getter leaves: every raw value is removed,
    its text minus its first character and the fragment after it appended to
    the fragment before it; bound values and their fragments stay.
   */
  function Resolve(strings: seq<string>, values: seq<Value>): (r: Parts)
    requires |values| < |strings|
    ensures |r.strings| - |r.values| == |strings| - |values|
    ensures r.values == Filter(IsBound, values)
    decreases |values|
  {
    if values == [] then Parts(strings, [])
    else if IsRaw(values[0]) then
      Resolve([strings[0] + values[0].s[1..] + strings[1]] + strings[2..], values[1..])
    else
      var rest := Resolve(strings[1..], values[1..]);
      Parts([strings[0]] + rest.strings, [values[0]] + rest.values)
  }

  /** What one value contributes to the SQL text: its text minus the first character
      when raw, a `?` placeholder when bound. */
  function Piece(v: Value): string
  {
    if IsRaw(v) then v.s[1..] else "?"
  }

  /** The fragments with each value's piece between its two neighbours. */
  function Inline(strings: seq<string>, values: seq<Value>): string
    requires |values| < |strings|
    decreases |values|
  {
    if values == [] then Join(strings, "?")
    else strings[0] + Piece(values[0]) + Inline(strings[1..], values[1..])
  }

  lemma {:induction false} InlineExtendFirst(x: string, y: string, rest: seq<string>, values: seq<Value>)
    requires |values| <= |rest|
    ensures Inline([x + y] + rest, values) == x + Inline([y] + rest, values)
  {
  }

  /** After the splice, joining the fragments with `?` gives the fragments with every
      raw value inlined and a `?` for every bound one. */
  lemma {:induction false} ResolveInline(strings: seq<string>, values: seq<Value>)
    requires |values| < |strings|
    ensures Join(Resolve(strings, values).strings, "?") == Inline(strings, values)
    decreases |values|
  {
    if values != [] {
      if IsRaw(values[0]) {
        var head := strings[0] + values[0].s[1..];
        ResolveInline([head + strings[1]] + strings[2..], values[1..]);
        InlineExtendFirst(head, strings[1], strings[2..], values[1..]);
        assert [strings[1]] + strings[2..] == strings[1..];
      } else {
        var rest := Resolve(strings[1..], values[1..]);
        ResolveInline(strings[1..], values[1..]);
        JoinConcat([strings[0]], rest.strings, "?");
      }
    }
  }

  /** Without raw values the splice changes nothing, so a second `sql` call is a no-op. */
  lemma {:induction false} ResolveNoRaw(strings: seq<string>, values: seq<Value>)
    requires |values| < |strings|
    requires AllBound(values)
    ensures Resolve(strings, values) == Parts(strings, values)
    decreases |values|
  {
    if values != [] {
      assert IsBound(values[0]);
      assert AllBound(values[1..]) by {
        forall k | 0 <= k < |values[1..]| ensures IsBound(values[1..][k]) {
          assert values[1..][k] == values[k + 1];
        }
      }
      ResolveNoRaw(strings[1..], values[1..]);
      assert Resolve(strings, values) == Parts([strings[0]] + strings[1..], [values[0]] + values[1..]);
      assert [strings[0]] + strings[1..] == strings;
      assert [values[0]] + values[1..] == values;
    }
  }

  /** The splice keeps the parameter list `execute` binds: `cleanValues` is the same
      before and after the `sql` getter. */
  lemma {:induction false} ResolveKeepsCleanValues(strings: seq<string>, values: seq<Value>)
    requires |values| < |strings|
    ensures CleanValues(Resolve(strings, values).values) == CleanValues(values)
  {
    var kept := Filter(IsBound, values);
    FilterAll(IsBound, kept);
  }

  predicate NotBang(fragment: string)
  {
    fragment != "!"
  }

  /** The string the `sql` getter returns: the fragments other than "!" joined with `?`. */
  function Render(strings: seq<string>): string
  {
    Join(Filter(NotBang, strings), "?")
  }

  /** When no fragment is "!", the rendered SQL is the inlined text. */
  lemma {:induction false} RenderResolved(strings: seq<string>, values: seq<Value>)
    requires |values| < |strings|
    requires forall i :: 0 <= i < |Resolve(strings, values).strings| ==> NotBang(Resolve(strings, values).strings[i])
    ensures Render(Resolve(strings, values).strings) == Inline(strings, values)
  {
    FilterAll(NotBang, Resolve(strings, values).strings);
    ResolveInline(strings, values);
  }

  /** A "!" fragment left after the splice contributes nothing, not even a `?`. */
  lemma {:induction false} RenderDropsBang(a: seq<string>, b: seq<string>)
    ensures Render(a + ["!"] + b) == Render(a + b)
  {
    FilterConcat(NotBang, a + ["!"], b);
    FilterConcat(NotBang, a, ["!"]);
    FilterConcat(NotBang, a, b);
    assert ["!"][1..] == [];
    assert Filter(NotBang, ["!"]) == [];
    assert Filter(NotBang, a + ["!"]) == Filter(NotBang, a);
  }

  /** A "!" fragment right after a raw value is merged into the fragment before it
      by the splice, so it is rendered, unless the fragment it ends up in after every
      splice is exactly "!". That happens when the fragment before it and the raw
      value minus its first character are both empty and the next value is bound
      (`BangAfterEmptyRawIsDropped`); when the next value is raw too, more text is
      glued on and the "!" is rendered again (`BangBeforeRawIsKept`). */
  lemma BangAfterRawIsKept()
    ensures Resolve(["a", "!", "c"], [Str("#"), Other(1)]) == Parts(["a!", "c"], [Other(1)])
    ensures Render(["a!", "c"]) == "a!?c"
  {
    assert IsRaw(Str("#"));
    assert ["a", "!", "c"][2..] == ["c"];
    assert "a" + "#"[1..] + "!" == "a!";
    assert Filter(NotBang, ["a!", "c"]) == ["a!", "c"];
  }

  /** With an empty fragment before it and a raw value of just "#", the merged fragment
      is "!" and is dropped, and the bound value after it is left without a `?`. */
  lemma BangAfterEmptyRawIsDropped()
    ensures Resolve(["", "!", "c"], [Str("#"), Other(1)]) == Parts(["!", "c"], [Other(1)])
    ensures Render(["!", "c"]) == "c"
  {
    assert IsRaw(Str("#"));
    assert ["", "!", "c"][2..] == ["c"];
    assert "" + "#"[1..] + "!" == "!";
    assert ["!", "c"][1..] == ["c"];
    assert ["c"][1..] == [];
    assert Filter(NotBang, ["!", "c"]) == ["c"];
  }

  /** When the next value is raw as well, the rescan glues the following fragment onto
      the merged "!", so the "!" is part of a longer fragment and is rendered. */
  lemma BangBeforeRawIsKept()
    ensures Resolve(["", "!", "a"], [Str("#"), Str("#")]) == Parts(["!a"], [])
    ensures Render(["!a"]) == "!a"
  {
    assert IsRaw(Str("#"));
    assert ["", "!", "a"][2..] == ["a"];
    assert "" + "#"[1..] + "!" == "!";
    assert ["!", "a"][2..] == [];
    assert "!" + "#"[1..] + "a" == "!a";
    assert [Str("#"), Str("#")][1..][1..] == [];
    assert Filter(NotBang, ["!a"]) == ["!a"];
  }

  /** The splice with the first `i` positions already scanned: those fragments and
      values are kept, the rest is still to be resolved. */
  function ResolveFrom(strings: seq<string>, values: seq<Value>, i: nat): Parts
    requires i <= |values| < |strings|
  {
    var rest := Resolve(strings[i..], values[i..]);
    Parts(strings[..i] + rest.strings, values[..i] + rest.values)
  }

  lemma {:induction false} ResolveFromStart(strings: seq<string>, values: seq<Value>)
    requires |values| < |strings|
    ensures ResolveFrom(strings, values, 0) == Resolve(strings, values)
  {
  }

  lemma {:induction false} ResolveFromEnd(strings: seq<string>, values: seq<Value>)
    requires |values| < |strings|
    ensures ResolveFrom(strings, values, |values|) == Parts(strings, values)
  {
  }

  /** A bound value at position `i` is kept with its fragment: scanning moves on. */
  lemma {:induction false} ResolveFromBound(strings: seq<string>, values: seq<Value>, i: nat)
    requires i < |values| < |strings|
    requires IsBound(values[i])
    ensures ResolveFrom(strings, values, i + 1) == ResolveFrom(strings, values, i)
  {
    assert strings[..i + 1] == strings[..i] + [strings[i]];
    assert values[..i + 1] == values[..i] + [values[i]];
    assert strings[i + 1..] == strings[i..][1..];
    assert values[i + 1..] == values[i..][1..];
  }

  /** A raw value at position `i` is spliced into fragment `i` together with fragment
      `i + 1`; the same position is then scanned again. */
  lemma {:induction false} ResolveFromRaw(strings: seq<string>, values: seq<Value>, i: nat)
    requires i < |values| < |strings|
    requires IsRaw(values[i])
    ensures ResolveFrom(strings[..i] + [strings[i] + values[i].s[1..] + strings[i + 1]] + strings[i + 2..],
                        values[..i] + values[i + 1..], i)
         == ResolveFrom(strings, values, i)
  {
    var s' := strings[..i] + [strings[i] + values[i].s[1..] + strings[i + 1]] + strings[i + 2..];
    var v' := values[..i] + values[i + 1..];
    assert s'[..i] == strings[..i];
    assert v'[..i] == values[..i];
    assert s'[i..] == [strings[i..][0] + values[i..][0].s[1..] + strings[i..][1]] + strings[i..][2..];
    assert v'[i..] == values[i..][1..];
  }

  /** The getter's three in-place steps (append the raw text, append the next
      fragment, remove the next fragment) splice fragment `i + 1` into fragment `i`. */
  lemma SpliceSteps(strings: seq<string>, i: nat, raw: string)
    requires i + 1 < |strings|
    ensures var s1 := strings[i := strings[i] + raw];
            var s2 := s1[i := s1[i] + s1[i + 1]];
            s2[..i + 1] + s2[i + 2..] == strings[..i] + [strings[i] + raw + strings[i + 1]] + strings[i + 2..]
  {
  }

  // ------------------------------------------------------- chain and append

  /** The fragments after `chain(other)`: one space and other's first fragment
      appended to the last fragment, then other's remaining fragments. */
  function Chained(a: seq<string>, b: seq<string>): (r: seq<string>)
    requires |a| >= 1 && |b| >= 1
    ensures |r| == |a| + |b| - 1
  {
    a[|a| - 1 := a[|a| - 1] + (" " + b[0])] + b[1..]
  }

  /** The fragments after the deprecated `append(other)`: other's first fragment appended
      to the last fragment with no space, then ALL of other's fragments, the first again. */
  function Appended(a: seq<string>, b: seq<string>): (r: seq<string>)
    requires |a| >= 1 && |b| >= 1
    ensures |r| == |a| + |b|
  {
    a[|a| - 1 := a[|a| - 1] + b[0]] + b
  }

  /** Chaining keeps the template shape: one more fragment than values. */
  lemma {:induction false} ChainedKeepsShape(a: seq<string>, va: seq<Value>, b: seq<string>, vb: seq<Value>)
    requires |a| == |va| + 1 && |b| == |vb| + 1
    ensures |Chained(a, b)| == |va + vb| + 1
  {
  }

  /** Appending breaks the template shape: two more fragments than values. */
  lemma {:induction false} AppendedBreaksShape(a: seq<string>, va: seq<Value>, b: seq<string>, vb: seq<Value>)
    requires |a| == |va| + 1 && |b| == |vb| + 1
    ensures |Appended(a, b)| == |va + vb| + 2
  {
  }

  /** Joining the chained fragments: the first join, one space, the second join. */
  lemma {:induction false} JoinChained(a: seq<string>, b: seq<string>, sep: string)
    requires |a| >= 1 && |b| >= 1
    ensures Join(Chained(a, b), sep) == Join(a, sep) + " " + Join(b, sep)
  {
    var ext := a[|a| - 1 := a[|a| - 1] + (" " + b[0])];
    JoinExtendLast(a, " " + b[0], sep);
    if |b| == 1 {
      assert Chained(a, b) == ext;
    } else {
      var ja, jt := Join(a, sep), Join(b[1..], sep);
      assert Chained(a, b) == ext + b[1..];
      JoinConcat(ext, b[1..], sep);
      assert Join(b, sep) == b[0] + sep + jt;
      assert Join(Chained(a, b), sep) == (ja + (" " + b[0])) + sep + jt;
      assert (ja + (" " + b[0])) + sep + jt == (ja + " ") + (b[0] + sep + jt);
    }
  }

  /** Joining the appended fragments: other's first fragment shows up twice. */
  lemma {:induction false} JoinAppended(a: seq<string>, b: seq<string>, sep: string)
    requires |a| >= 1 && |b| >= 1
    ensures Join(Appended(a, b), sep) == Join(a, sep) + b[0] + sep + Join(b, sep)
  {
    var ext := a[|a| - 1 := a[|a| - 1] + b[0]];
    JoinExtendLast(a, b[0], sep);
    assert Appended(a, b) == ext + b;
    JoinConcat(ext, b, sep);
  }

  /** Filtering out "!" keeps a last fragment that is not "!" at the end. */
  lemma {:induction false} FilterNotBangLast(a: seq<string>)
    requires |a| >= 1 && NotBang(a[|a| - 1])
    ensures Filter(NotBang, a) == Filter(NotBang, a[..|a| - 1]) + [a[|a| - 1]]
  {
    var last := a[|a| - 1];
    assert a == a[..|a| - 1] + [last];
    FilterConcat(NotBang, a[..|a| - 1], [last]);
    assert [last][1..] == [];
    assert Filter(NotBang, [last]) == [last];
  }

  /** Filtering out "!" keeps a first fragment that is not "!" at the front. */
  lemma {:induction false} FilterNotBangFirst(b: seq<string>)
    requires |b| >= 1 && NotBang(b[0])
    ensures Filter(NotBang, b) == [b[0]] + Filter(NotBang, b[1..])
  {
  }

  /** Gluing two fragments neither of which is "!" never gives "!". */
  lemma {:induction false} NotBangGlued(x: string, y: string)
    requires NotBang(x) && NotBang(y)
    ensures NotBang(x + y)
  {
    if x == [] {
      assert x + y == y;
    } else if y == [] {
      assert x + y == x;
    } else {
      assert |x + y| >= 2;
    }
  }

  /** The chained statement renders as the first, one space, then the second, as long
      as neither fragment at the seam is "!"; "!" fragments elsewhere drop as usual. */
  lemma {:induction false} RenderChained(a: seq<string>, b: seq<string>)
    requires |a| >= 1 && |b| >= 1
    requires NotBang(a[|a| - 1]) && NotBang(b[0])
    ensures Render(Chained(a, b)) == Render(a) + " " + Render(b)
  {
    var init, last := a[..|a| - 1], a[|a| - 1];
    var m := last + (" " + b[0]);
    assert (" " + b[0])[0] == ' ';
    NotBangGlued(last, " " + b[0]);
    FilterNotBangLast(a);
    FilterNotBangFirst(b);
    var fa, fb := Filter(NotBang, a), Filter(NotBang, b);
    assert Chained(a, b) == init + [m] + b[1..];
    FilterConcat(NotBang, init + [m], b[1..]);
    FilterConcat(NotBang, init, [m]);
    assert [m][1..] == [];
    assert Filter(NotBang, [m]) == [m];
    assert Chained(fa, fb) == Filter(NotBang, init) + [m] + Filter(NotBang, b[1..]);
    JoinChained(fa, fb, "?");
  }

  /** The appended statement renders with other's first fragment twice: glued to the
      end of the first statement and again after an extra `?`, as long as neither
      fragment at the seam is "!". */
  lemma {:induction false} RenderAppended(a: seq<string>, b: seq<string>)
    requires |a| >= 1 && |b| >= 1
    requires NotBang(a[|a| - 1]) && NotBang(b[0])
    ensures Render(Appended(a, b)) == Render(a) + b[0] + "?" + Render(b)
  {
    var init, last := a[..|a| - 1], a[|a| - 1];
    var m := last + b[0];
    NotBangGlued(last, b[0]);
    FilterNotBangLast(a);
    FilterNotBangFirst(b);
    var fa, fb := Filter(NotBang, a), Filter(NotBang, b);
    assert Appended(a, b) == init + [m] + b;
    FilterConcat(NotBang, init + [m], b);
    FilterConcat(NotBang, init, [m]);
    assert [m][1..] == [];
    assert Filter(NotBang, [m]) == [m];
    assert Appended(fa, fb) == Filter(NotBang, init) + [m] + fb;
    JoinAppended(fa, fb, "?");
  }

  /** What `chain` and `append` accept: another statement or a piece of SQL text. */
  datatype Extension = Statement(st: SqlStatement) | Literal(text: string)

  // ----------------------------------------------------------- the class

  class SqlStatement {
    var strings: seq<string>
    var values: seq<Value>

    constructor (strings: seq<string>, values: seq<Value>)
      ensures this.strings == strings && this.values == values
    {
      this.strings := strings;
      this.values := values;
    }

    /** `chain(extendQuery)`: merge another statement or a piece of text into this one. */
    method Chain(ext: Extension) returns (r: SqlStatement)
      requires |strings| >= 1
      requires ext.Statement? ==> |ext.st.strings| >= 1
      modifies this
      ensures r == this
      ensures ext.Literal? ==>
        strings == old(strings)[|old(strings)| - 1 := old(strings[|strings| - 1]) + (" " + ext.text)] &&
        values == old(values)
      ensures ext.Statement? && ext.st != this ==>
        strings == Chained(old(strings), old(ext.st.strings)) &&
        values == old(values) + old(ext.st.values)
      // `x.chain(x)`: the fragments pushed are read after the last one was extended
      ensures ext.Statement? && ext.st == this ==>
        var merged := old(strings)[|old(strings)| - 1 := old(strings[|strings| - 1]) + (" " + old(strings[0]))];
        strings == merged + merged[1..] && values == old(values) + old(values)
    {
      match ext {
        case Statement(other) =>
          strings := strings[|strings| - 1 := strings[|strings| - 1] + (" " + other.strings[0])];
          strings := strings + other.strings[1..];
          values := values + other.values;
        case Literal(text) =>
          strings := strings[|strings| - 1 := strings[|strings| - 1] + (" " + text)];
      }
      r := this;
    }

    /** The deprecated `append(statement)`. */
    method Append(ext: Extension) returns (r: SqlStatement)
      requires |strings| >= 1
      requires ext.Statement? ==> |ext.st.strings| >= 1
      modifies this
      ensures r == this
      ensures ext.Literal? ==>
        strings == old(strings)[|old(strings)| - 1 := old(strings[|strings| - 1]) + (" " + ext.text)] &&
        values == old(values)
      ensures ext.Statement? && ext.st != this ==>
        strings == Appended(old(strings), old(ext.st.strings)) &&
        values == old(values) + old(ext.st.values)
      // `x.append(x)`: the fragments pushed are read after the last one was extended
      ensures ext.Statement? && ext.st == this ==>
        var merged := old(strings)[|old(strings)| - 1 := old(strings[|strings| - 1]) + old(strings[0])];
        strings == merged + merged && values == old(values) + old(values)
    {
      match ext {
        case Statement(other) =>
          strings := strings[|strings| - 1 := strings[|strings| - 1] + other.strings[0]];
          strings := strings + other.strings;
          values := values + other.values;
        case Literal(text) =>
          // the same as `Chain` with text: a space, then the text
          strings := strings[|strings| - 1 := strings[|strings| - 1] + (" " + text)];
      }
      r := this;
    }

    /** The `sql` getter: splice the raw values into the fragments, in place, then
        drop the "!" fragments and join the rest with `?`. */
    method Sql() returns (q: string)
      requires |values| < |strings|
      modifies this
      ensures Parts(strings, values) == Resolve(old(strings), old(values))
      ensures AllBound(values)
      ensures |strings| - |values| == old(|strings| - |values|)
      ensures q == Render(strings)
      ensures old(AllBound(values)) ==>
        strings == old(strings) && values == old(values)
    {
      ghost var target := Resolve(strings, values);
      ResolveFromStart(strings, values);
      var i := 0;
      while i < |values|
        invariant 0 <= i <= |values| < |strings|
        invariant |strings| - |values| == old(|strings| - |values|)
        invariant ResolveFrom(strings, values, i) == target
        decreases |values| - i
      {
        var current := values[i];
        if current.Str? && '#' in current.s {
          ResolveFromRaw(strings, values, i);
          SpliceSteps(strings, i, current.s[1..]);
          strings := strings[i := strings[i] + current.s[1..]];
          strings := strings[i := strings[i] + strings[i + 1]];
          values := values[..i] + values[i + 1..];
          strings := strings[..i + 1] + strings[i + 2..];
          // `--i` here and the loop's `++i` cancel: the same index is scanned again
        } else {
          ResolveFromBound(strings, values, i);
          i := i + 1;
        }
      }
      ResolveFromEnd(strings, values);
      q := Render(strings);
      if old(AllBound(values)) {
        ResolveNoRaw(old(strings), old(values));
      }
    }
  }

  /** The `sql` tag: a statement holding a copy of the template's fragments and its values.
      A template literal always has one more fragment than values. */
  method SqlTag(strings: seq<string>, values: seq<Value>) returns (st: SqlStatement)
    requires |strings| == |values| + 1
    ensures fresh(st)
    ensures st.strings == strings && st.values == values
  {
    st := new SqlStatement(strings, values);
  }

  // ---------------------------------------------------------- genFilterQuery

  /** One `[field, oper, value]` row of the filter. */
  datatype FilterTerm = FilterTerm(field: string, oper: string, value: string)

  /** `!!value`: only a non-empty value takes part. */
  predicate Qualifies(term: FilterTerm)
  {
    term.value != ""
  }

  /** The predicate of one row: field, operator and the cleaned value in double quotes,
      separated by single spaces. */
  function ClauseText(term: FilterTerm): string
  {
    term.field + " " + term.oper + " \"" + CleanValue(term.value) + "\""
  }

  /** The predicates `genFilterQuery` collects, in input order. */
  function Clauses(filters: seq<FilterTerm>): seq<string>
  {
    Map(ClauseText, Filter(Qualifies, filters))
  }

  /** The clauses of a concatenation are the concatenation of the clauses. */
  lemma {:induction false} ClausesConcat(a: seq<FilterTerm>, b: seq<FilterTerm>)
    ensures Clauses(a + b) == Clauses(a) + Clauses(b)
  {
    FilterConcat(Qualifies, a, b);
    MapConcat(ClauseText, Filter(Qualifies, a), Filter(Qualifies, b));
  }

  /** There is no clause exactly when every row has an empty value. */
  lemma {:induction false} ClausesEmpty(filters: seq<FilterTerm>)
    ensures Clauses(filters) == [] <==> forall i :: 0 <= i < |filters| ==> filters[i].value == ""
  {
    if filters != [] {
      ClausesEmpty(filters[1..]);
      assert forall i :: 1 <= i < |filters| ==> filters[i] == filters[1..][i - 1];
    }
  }

  /** `genFilterQuery`: "WHERE" chained with the qualifying predicates joined by " AND ",
      or an empty statement when no row qualifies; never any bound value. */
  method GenFilterQuery(filters: seq<FilterTerm>) returns (st: SqlStatement)
    ensures fresh(st)
    ensures st.values == []
    ensures (forall i :: 0 <= i < |filters| ==> filters[i].value == "") ==> st.strings == [""]
    ensures (exists i :: 0 <= i < |filters| && filters[i].value != "") ==>
      st.strings == ["WHERE " + Join(Clauses(filters), " AND ")]
  {
    var query := SqlTag(["WHERE"], []);
    var logic: seq<string> := [];
    var i := 0;
    while i < |filters|
      invariant 0 <= i <= |filters|
      invariant logic == Clauses(filters[..i])
      invariant query.strings == ["WHERE"] && query.values == []
    {
      var term := filters[i];
      ClausesConcat(filters[..i], [term]);
      assert filters[..i + 1] == filters[..i] + [term];
      if term.value != "" {
        logic := logic + [ClauseText(term)];
      }
      i := i + 1;
    }
    assert filters[..i] == filters;
    ClausesEmpty(filters);
    if |logic| > 0 {
      var conjunction := Join(logic, " AND ");
      assert "WHERE" + (" " + conjunction) == "WHERE " + conjunction;
      st := query.Chain(Literal(conjunction));
      return;
    }
    st := SqlTag([""], []);
  }
}
